=== FILE: README.md ===
# Now-playing pipeline, modelled in Dafny

This project models the data-acquisition core of a portfolio site's
"currently playing on Spotify" widget:

- the proxy endpoint `pages/api/spotify.ts`: a process-wide access-token
  cache refreshed through the provider's refresh-token exchange
  (`getAccessToken`), the currently-playing request with its status filter
  (`getNowPlaying`), and the default handler that maps every outcome to a
  status, a JSON body and, on some paths, a Cache-Control header;
- the polling hook `hooks/useCurrentlyPlayingTrack.ts`: the classification
  of the proxy's reply by `fetchCurrentlyPlaying`, including the wait and
  re-issue on a rate-limited reply, and the options the hook hands to its
  query library.

Everything is a pure function. The clock reading, the token endpoint's
answer (`TokenCache.Exchange`) and the currently-playing endpoint's answer
(`SpotifyApi.Upstream`) are parameters; the token cache is an immutable
record (`TokenCache.Cache`) that every call takes and returns; the handler
reports the outbound requests it would make (`SpotifyApi.Call`). On the
client side the replies the request would receive form a finite script, and
the time spent waiting is returned instead of slept.

Files: `wrappers.dfy` (Option, Result), `token_cache.dfy`,
`spotify_api.dfy`, `polling_client.dfy`, one module each.

Points where the code's behaviour may be unexpected:

- The status guard is `status > 400`, so a 400 answer carrying a track
  payload is shown as a track; only 401 and above are dropped by status
  (`SpotifyApi.StatusGuardAdmits400`).
- The configuration variables are read at module load and tested on
  every GET, after the method check.
- The cached token is reused only while it is truthy: a granted empty
  token is stored but exchanged again on the next call
  (`TokenCache.EmptyTokenNeverReused`).
- The album artists and the external URLs are read without a guard. An
  item lacking them makes the handler throw inside its try block. The
  reply is then `{isPlaying:false}` with status 200, and the Cache-Control
  header has already been set.
- The client's exponential back-off and retry count are options handed to
  the query library; the client itself only waits on a 429 that carries
  Retry-After, and throws on every other non-ok reply.

## Model

| member | source | states |
|---|---|---|
| TokenCache.GetAccessToken | pages/api/spotify.ts:19-51 | The endpoint is asked exactly when the cached token is empty or `now` is not before expiry minus 60000 ms; otherwise the cached token is returned and the cache kept. A grant stores the new token with expiry `now + expires_in*1000`. A rejection leaves the cache as it was and propagates the same error. Whenever a token is returned, it is the token the cache now holds. |
| TokenCache.ReusedUntilMargin | pages/api/spotify.ts:19-46 | After a successful exchange of a non-empty token at `now`, every lookup before `now + expires_in*1000 - 60000` reuses it with no exchange and no cache change. This includes the immediate second call when `expires_in*1000 > 60000`. |
| TokenCache.EmptyTokenNeverReused | pages/api/spotify.ts:23 | A granted empty token is falsy, so the next lookup exchanges again. |
| TokenCache.RejectionLeavesCache | pages/api/spotify.ts:27-50 | A rejected exchange leaves both cache fields unchanged and returns the endpoint's error, so a later lookup asks the endpoint again. |
| SpotifyApi.GetNowPlaying | pages/api/spotify.ts:53-62 | It resolves exactly when a token is obtained and the endpoint answers below 500, and it then yields that answer unchanged. A status of 500 or more becomes a thrown server error. A transport failure throws that failure. A failed token exchange throws before any now-playing request. The calls made are exactly: one exchange carrying the refresh token iff the cache was not reusable, then one now-playing request iff a token was obtained, bearing that token: the cached one when reusable, else the granted one, which is also what the cache ends up holding. Afterwards the cache holds the grant with expiry `now + expires_in*1000` exactly when the cache was not reusable and the exchange was granted, and is untouched otherwise. |
| SpotifyApi.Spotify | pages/api/spotify.ts:64-118 | Non-GET gives 405 `Method not allowed` with no calls and no cache change, even when unconfigured. A GET with a missing variable gives 500 `Missing configuration` with no calls. Every other request gets status 200 and never an error body. Cache-Control `public, s-maxage=30, stale-while-revalidate=15` is set iff `getNowPlaying` resolved. A request that proceeds makes exactly these calls: one exchange iff the cache is not reusable, then one now-playing request iff a token was obtained, bearing the cached token when reusable and the granted one otherwise; a request that does not proceed makes none. The cache afterwards holds the granted token with expiry `now + expires_in*1000` exactly when the request proceeds, the cache was not reusable and the exchange was granted; in every other case it is the cache it was given. |
| SpotifyApi.TrackShownExactly | pages/api/spotify.ts:86-112 | The body is a track iff the request proceeds, a token is obtained and the answer is not 204 and not above 400. The payload must also have type "track" and an item with album, images, album artists and external URLs. Then `isPlaying`, `title`, `album` and `songUrl` are copied from the payload. `artist` is the album artists' names joined with ", ". `albumImageUrl` is the first image's url, or absent for an empty image list. |
| SpotifyApi.Normalise | pages/api/spotify.ts:86-110 | The body is a track iff the response shows a track (not 204, not above 400, type "track", item with album, images, album artists and external URLs). It throws a missing-field error exactly when the guards pass (not 204, not above 400, type "track", item, album and images present) but the album artists or the external URLs are absent. Every other response gives `{isPlaying:false}`. |
| SpotifyApi.ServeAll | pages/api/spotify.ts:15-17 | Every request gets exactly one reply. |
| SpotifyApi.ServeAllAppend | pages/api/spotify.ts:15-17 | Serving one batch of requests and then another equals serving them together. The second batch starts from the cache the first left behind, and replies and calls are concatenated. |
| SpotifyApi.DegradedIsNotPlaying | pages/api/spotify.ts:86-117 | Past the method and configuration checks, every non-track path ends in status 200 with exactly `{isPlaying:false}`. These paths are an exchange failure, a transport failure, a status of 500 or more, status 204 or above 400, no body, a non-track type, and a missing item, album, images, artists or URLs. |
| SpotifyApi.StatusGuardAdmits400 | pages/api/spotify.ts:86-93 | A 400 answer with a track payload is shown as a track, while a 401 with the same payload is `{isPlaying:false}`. |
| SpotifyApi.JoinAppend | pages/api/spotify.ts:107 | Joining a concatenation of two non-empty name lists equals joining each list, with one separator between the results. |
| SpotifyApi.JoinLength | pages/api/spotify.ts:107 | The joined artist string holds every name's characters plus one separator per gap between neighbours. |
| SpotifyApi.NoRefreshWhileReusable | pages/api/spotify.ts:15-25 | Over any sequence of requests sharing the cache, no exchange is made while the cached token stays reusable, and the cache is unchanged at the end. |
| SpotifyApi.OneRefreshPerTokenLifetime | pages/api/spotify.ts:15-46 | Take a GET that finds the cache unusable and is granted a non-empty token for `expires_in` seconds. Together with any requests that follow it before the token's 60-second margin begins, it makes exactly one exchange. |
| SpotifyApi.ScenarioTrackAfterRefresh | pages/api/spotify.ts:64-118 | Grant "T1" for 3600 s at t=0 and a playing track. The reply is `{isPlaying:true, title:"Song", artist:"Art", album:"Album", albumImageUrl:"u", songUrl:"s"}`. A second request at t=1000 gets the same reply. The calls are one exchange followed by two now-playing requests bearing "T1". |
| PollingClient.FetchCurrentlyPlaying | hooks/useCurrentlyPlayingTrack.ts:4-19 | An ok first reply gives its body unchanged with no wait. A non-ok first reply that is not a 429 with Retry-After gives the fixed error. The fetch is unsettled iff every scripted reply is a 429 with Retry-After. It issues at least one request and at most one more than there are replies; when unsettled it has issued exactly one more, the re-issue after the last wait. |
| PollingClient.Settle | hooks/useCurrentlyPlayingTrack.ts:7-18 | A reply that does not defer settles the fetch. An ok reply gives its body. Any other status, a 429 without Retry-After included, gives the error "Failed to fetch currently playing track". A rejected fetch propagates its own error. |
| PollingClient.SettlesAtFirstNonDeferral | hooks/useCurrentlyPlayingTrack.ts:8-12 | The outcome is that of the first reply that is not a 429 with Retry-After. The requests issued are that reply's position plus one. The time waited is the sum of `retryAfter*1000` over the replies before it. |
| PollingClient.AllDeferralsLeaveUnsettled | hooks/useCurrentlyPlayingTrack.ts:8-12 | If every reply is a 429 with Retry-After, each is waited out and the request re-issued. The fetch is still pending, having issued one request more than there are replies and waited the sum of their delays. |
| PollingClient.ScenarioRateLimitedThenOk | __tests__/hooks/useCurrentlyPlayingTrack.test.tsx:62-82 | A 429 with `Retry-After: 1` followed by an ok reply surfaces the ok body after a 1000 ms wait and two requests. |
| PollingClient.ClampInterval | hooks/useCurrentlyPlayingTrack.ts:25-26 | The effective interval is at least 3000 and at least the request, and it is one of the two. |
| PollingClient.UseCurrentlyPlayingTrack | hooks/useCurrentlyPlayingTrack.ts:21-36 | With the argument omitted, the polling interval defaults to 5000. Otherwise the interval is the request when it is at least 3000, else 3000. The retry count defaults to 3 and is otherwise passed through unchanged, 0 included. The stale time is 30000 ms. |
| PollingClient.ScenarioClampedInterval | hooks/useCurrentlyPlayingTrack.ts:26 | A 500 ms request polls every 3000 ms. |
| PollingClient.ScenarioNoRetry | __tests__/hooks/useCurrentlyPlayingTrack.test.tsx:48-60 | With arguments `(5000, 0)` the library gets zero retries, and a 500 reply fails the fetch. |
| PollingClient.RetryDelay | hooks/useCurrentlyPlayingTrack.ts:34 | Every retry delay lies between 1000 and 30000 ms. |
| PollingClient.RetryDelayDoubles | hooks/useCurrentlyPlayingTrack.ts:34 | The first retry waits 1000 ms, and each next one doubles the previous delay, capped at 30000. |
| PollingClient.RetryDelayMonotone | hooks/useCurrentlyPlayingTrack.ts:34 | Retry delays never decrease with the attempt index. |
| PollingClient.RetryDelayCapped | hooks/useCurrentlyPlayingTrack.ts:34 | From attempt index 5 on, the delay is exactly 30000 ms. |

## Left out

- HTTP I/O (the axios requests, `fetch`, `res.status/json/setHeader`): replaced by the answer datatypes and the `Reply`/`Call` records.
- The Basic authorization header (`Buffer` base64 of id and secret) and the form body of the exchange: opaque; a `TokenRequest` records only the refresh token sent.
- Which token-endpoint answers count as failures (axios's default acceptance of 2xx only, transport errors): abstracted to `Exchange.Rejected`.
- `Date.now` and `setTimeout`: the clock is a parameter and waits are returned as milliseconds.
- `expires_in`, status codes, intervals and delays are integers; JavaScript's floating-point numbers (fractions, NaN, `2 ** i` overflowing to Infinity) are not modelled.
- `parseInt` on a Retry-After that is not a number: the header is taken as already parsed to whole seconds.
- A reply body that is not valid JSON (`res.json()` rejecting) is not modelled.
- Concurrent handler invocations racing on the token cache: requests are served one after another.
- The query library's scheduler, interval refetching, retry loop and cancellation: library behaviour not shown in the source; only the options the hook passes are modelled.
- PollingClient.FetchCurrentlyPlaying: the source recursion on a 429 is unbounded; over a finite script a fetch still waiting after the last reply ends `Unsettled`, counting the re-issued request that is still pending.
- Payload fields the handler copies without a test (`item.name`, `album.name`, `is_playing`, `external_urls.spotify`, the elements of `images` and of `album.artists`) are assumed present and non-null; in the source a missing one is dropped from the JSON reply, a null `images[0]` gives no `albumImageUrl`, and a null artist element throws inside the try (200 `{isPlaying:false}` with the header already set).
- A 2xx token answer without `access_token` is not modelled: a grant always carries a token string, whereas the source would store `undefined` and, that being falsy, exchange again on the next call.
- `console.error` logging.
- The display component, the loading animation, and the Next.js and Jest configuration: presentation and scaffolding with no pipeline logic.

=== FILE: polling_client.dfy ===
/**
 * The consumer side: `fetchCurrentlyPlaying`, which classifies the proxy's
 * HTTP reply and waits out rate limiting, and the options the polling hook
 * hands to its query library (interval floor, stale time, retry count and
 * retry back-off).
 *
 * The recursion on a rate-limited reply re-issues the request; here the
 * replies the request would receive, in order, are a finite script, and
 * the waits are reported instead of slept.
 */
module PollingClient {
  import opened Wrappers
  import SpotifyApi

  /**
   * What one `fetch('/api/spotify')` yields: a rejected promise, or a reply.
   * `retryAfter` is the Retry-After header as whole seconds; `None` when the
   * header is absent or empty (both falsy).
   */
  datatype Reply =
    | Unreachable(reason: string)
    | HttpReply(status: int, retryAfter: Option<nat>, body: SpotifyApi.Body)

  /** `Response.ok`: a status in the range 200-299. */
  predicate IsOk(status: int) {
    200 <= status <= 299
  }

  /** A reply the fetch waits out and answers by re-issuing the same request. */
  predicate Defers(r: Reply) {
    r.HttpReply? && r.status == 429 && r.retryAfter.Some?
  }

  /** Milliseconds waited before re-issuing after `r`. */
  function Delay(r: Reply): nat {
    if Defers(r) then r.retryAfter.value * 1000 else 0
  }

  const FetchFailedMessage: string := "Failed to fetch currently playing track"

  /**
   * How a fetch ends: with the parsed body, with a thrown error, or still
   * waiting for a reply the script does not hold.
   */
  datatype Outcome = Data(body: SpotifyApi.Body) | Failed(error: string) | Unsettled

  /**
   * The outcome, the total time spent waiting, and how many requests were
   * issued; an unsettled fetch counts the re-issued request still pending.
   */
  datatype Fetched = Fetched(outcome: Outcome, waitedMs: nat, requests: nat)

  /** `fetchCurrentlyPlaying` against the replies `script`, one per request issued. */
  function FetchCurrentlyPlaying(script: seq<Reply>): (f: Fetched)
    ensures 1 <= f.requests <= |script| + 1
    ensures f.outcome.Unsettled? <==> forall i :: 0 <= i < |script| ==> Defers(script[i])
    ensures f.outcome.Unsettled? ==> f.requests == |script| + 1
    ensures |script| > 0 && script[0].HttpReply? && IsOk(script[0].status) ==>
              f == Fetched(Data(script[0].body), 0, 1)
    ensures |script| > 0 && script[0].HttpReply? && !IsOk(script[0].status) && !Defers(script[0]) ==>
              f == Fetched(Failed(FetchFailedMessage), 0, 1)
    decreases |script|
  {
    if script == [] then
      Fetched(Unsettled, 0, 1)
    else
      match script[0]
      case Unreachable(reason) =>
        Fetched(Failed(reason), 0, 1)
      case HttpReply(status, retryAfter, body) =>
        if !IsOk(status) then
          if status == 429 && retryAfter.Some? then
            var rest := FetchCurrentlyPlaying(script[1..]);
            assert forall i :: 1 <= i < |script| ==> script[i] == script[1..][i - 1];
            Fetched(rest.outcome, retryAfter.value * 1000 + rest.waitedMs, rest.requests + 1)
          else
            Fetched(Failed(FetchFailedMessage), 0, 1)
        else
          Fetched(Data(body), 0, 1)
  }

  /** How a single reply that does not defer settles the fetch. */
  function Settle(r: Reply): (o: Outcome)
    requires !Defers(r)
    ensures r.Unreachable? ==> o == Failed(r.reason)
    ensures r.HttpReply? ==> (o.Data? <==> IsOk(r.status))
    ensures o.Data? ==> o.body == r.body
    ensures r.HttpReply? && !IsOk(r.status) ==> o == Failed(FetchFailedMessage)
  {
    match r
    case Unreachable(reason) => Failed(reason)
    case HttpReply(status, _, body) => if IsOk(status) then Data(body) else Failed(FetchFailedMessage)
  }

  /** Total wait over `s`, summed from the back. */
  function DeferredMs(s: seq<Reply>): nat
  {
    if s == [] then 0 else DeferredMs(s[..|s| - 1]) + Delay(s[|s| - 1])
  }

  lemma {:induction false} DeferredMsCons(r: Reply, s: seq<Reply>)
    ensures DeferredMs([r] + s) == Delay(r) + DeferredMs(s)
    decreases |s|
  {
    if s == [] {
      assert ([r] + s)[..0] == [];
    } else {
      assert ([r] + s)[..|[r] + s| - 1] == [r] + s[..|s| - 1];
      DeferredMsCons(r, s[..|s| - 1]);
    }
  }

  /**
   * The fetch is decided by the first reply that does not defer: its
   * outcome is that reply's, one request was issued per reply up to it, and
   * the time waited is the sum of the Retry-After delays before it.
   */
  lemma {:induction false} SettlesAtFirstNonDeferral(script: seq<Reply>, i: nat)
    requires i < |script| && !Defers(script[i])
    requires forall j :: 0 <= j < i ==> Defers(script[j])
    ensures FetchCurrentlyPlaying(script).outcome == Settle(script[i])
    ensures FetchCurrentlyPlaying(script).requests == i + 1
    ensures FetchCurrentlyPlaying(script).waitedMs == DeferredMs(script[..i])
    decreases i
  {
    if i == 0 {
      assert script[..0] == [];
    } else {
      var rest := script[1..];
      forall j | 0 <= j < i - 1
        ensures Defers(rest[j])
      {
        assert rest[j] == script[j + 1];
      }
      SettlesAtFirstNonDeferral(rest, i - 1);
      assert script[..i] == [script[0]] + rest[..i - 1];
      DeferredMsCons(script[0], rest[..i - 1]);
    }
  }

  /**
   * When every scripted reply defers, each is waited out and the request is
   * issued once more, so the fetch is still waiting for a further reply.
   */
  lemma {:induction false} AllDeferralsLeaveUnsettled(script: seq<Reply>)
    requires forall j :: 0 <= j < |script| ==> Defers(script[j])
    ensures FetchCurrentlyPlaying(script).outcome == Unsettled
    ensures FetchCurrentlyPlaying(script).requests == |script| + 1
    ensures FetchCurrentlyPlaying(script).waitedMs == DeferredMs(script)
    decreases |script|
  {
    if script != [] {
      var rest := script[1..];
      forall j | 0 <= j < |rest|
        ensures Defers(rest[j])
      {
        assert rest[j] == script[j + 1];
      }
      AllDeferralsLeaveUnsettled(rest);
      assert script == [script[0]] + rest;
      DeferredMsCons(script[0], rest);
    }
  }

  /** A 429 with `Retry-After: 1` followed by a success: the success is surfaced after 1000 ms. */
  lemma ScenarioRateLimitedThenOk(first: SpotifyApi.Body, body: SpotifyApi.Body)
    ensures FetchCurrentlyPlaying([HttpReply(429, Some(1), first), HttpReply(200, None, body)])
            == Fetched(Data(body), 1000, 2)
  {
    var script := [HttpReply(429, Some(1), first), HttpReply(200, None, body)];
    assert script[1..] == [HttpReply(200, None, body)];
  }

  // ---------------------------------------------------------------------
  // The options `useCurrentlyPlayingTrack` passes to the query library.
  // ---------------------------------------------------------------------

  const MinPollingIntervalMs: int := 3000
  const DefaultPollingIntervalMs: int := 5000
  const DefaultRetryCount: int := 3
  const StaleTimeMs: int := 30000
  const BaseRetryDelayMs: nat := 1000
  const MaxRetryDelayMs: nat := 30000
  const QueryKey: seq<string> := ["currently-playing"]

  /** `refetchInterval`, `staleTime` and `retry` as the hook sets them; `retryDelay` is `RetryDelay`. */
  datatype QueryOptions = QueryOptions(queryKey: seq<string>, refetchInterval: int, staleTime: int, retry: int)

  /** `Math.max(pollingInterval, 3000)`. */
  function ClampInterval(pollingInterval: int): (r: int)
    ensures r >= MinPollingIntervalMs && r >= pollingInterval
    ensures r == pollingInterval || r == MinPollingIntervalMs
  {
    if pollingInterval > MinPollingIntervalMs then pollingInterval else MinPollingIntervalMs
  }

  /** The hook's options for the given arguments; `None` is an omitted argument. */
  function UseCurrentlyPlayingTrack(pollingInterval: Option<int>, retryCount: Option<int>): (o: QueryOptions)
    ensures o.refetchInterval >= MinPollingIntervalMs
    ensures pollingInterval.None? ==> o.refetchInterval == DefaultPollingIntervalMs
    ensures pollingInterval.Some? && pollingInterval.value >= MinPollingIntervalMs ==>
              o.refetchInterval == pollingInterval.value
    ensures pollingInterval.Some? && pollingInterval.value < MinPollingIntervalMs ==>
              o.refetchInterval == MinPollingIntervalMs
    ensures retryCount.Some? ==> o.retry == retryCount.value
    ensures retryCount.None? ==> o.retry == DefaultRetryCount
    ensures o.staleTime == StaleTimeMs && o.queryKey == QueryKey
  {
    QueryOptions(QueryKey, ClampInterval(pollingInterval.GetOr(DefaultPollingIntervalMs)),
                 StaleTimeMs, retryCount.GetOr(DefaultRetryCount))
  }

  /** Requesting 500 ms polls every 3000 ms. */
  lemma ScenarioClampedInterval()
    ensures UseCurrentlyPlayingTrack(Some(500), None).refetchInterval == 3000
  {
  }

  /** With `(5000, 0)` the library gets no retries, and a 500 reply fails the fetch. */
  lemma ScenarioNoRetry()
    ensures UseCurrentlyPlayingTrack(Some(5000), Some(0)).retry == 0
    ensures FetchCurrentlyPlaying([HttpReply(500, None, SpotifyApi.NotPlaying)]).outcome
            == Failed(FetchFailedMessage)
  {
  }

  function Pow2(n: nat): (r: nat)
    ensures r >= 1
  {
    if n == 0 then 1 else 2 * Pow2(n - 1)
  }

  lemma {:induction false} Pow2Monotone(i: nat, j: nat)
    requires i <= j
    ensures Pow2(i) <= Pow2(j)
    decreases j - i
  {
    if i < j {
      Pow2Monotone(i, j - 1);
    }
  }

  /** `retryDelay`: `Math.min(1000 * 2 ** attemptIndex, 30000)`. */
  function RetryDelay(attemptIndex: nat): (d: nat)
    ensures BaseRetryDelayMs <= d <= MaxRetryDelayMs
  {
    var exponential := BaseRetryDelayMs * Pow2(attemptIndex);
    if exponential < MaxRetryDelayMs then exponential else MaxRetryDelayMs
  }

  /** The first retry waits one second, and each further one doubles the wait up to the cap. */
  lemma RetryDelayDoubles(i: nat)
    ensures RetryDelay(0) == BaseRetryDelayMs
    ensures RetryDelay(i + 1) == if 2 * RetryDelay(i) < MaxRetryDelayMs then 2 * RetryDelay(i) else MaxRetryDelayMs
  {
  }

  /** Later attempts never wait less. */
  lemma RetryDelayMonotone(i: nat, j: nat)
    requires i <= j
    ensures RetryDelay(i) <= RetryDelay(j)
  {
    Pow2Monotone(i, j);
  }

  /** From the sixth attempt (index 5, 32 s uncapped) on, the wait is the 30 s cap. */
  lemma RetryDelayCapped(i: nat)
    requires i >= 5
    ensures RetryDelay(i) == MaxRetryDelayMs
  {
    Pow2Monotone(5, i);
    assert Pow2(5) == 32;
  }
}

=== FILE: spotify_api.dfy ===
/**
 * The now-playing proxy endpoint: `getNowPlaying`, which fetches the
 * provider's currently-playing record with a cached access token, and the
 * default request handler, which turns every outcome into a reply.
 *
 * Network calls are replaced by their answers, given as parameters, and the
 * handler reports which calls it would have made.
 */
module SpotifyApi {
  import opened Wrappers
  import TokenCache

  // ---------------------------------------------------------------------
  // The provider's currently-playing payload, with the fields the handler
  // reads. A field the handler tests for presence, or dereferences without
  // a test, is an Option: `None` is a missing (undefined) field.
  // ---------------------------------------------------------------------

  datatype Image = Image(url: string)
  datatype Artist = Artist(name: string)
  datatype ExternalUrls = ExternalUrls(spotify: string)

  datatype Album = Album(
    name: string,
    images: Option<seq<Image>>,
    artists: Option<seq<Artist>>)

  /** A track; `artists` are the track's own artists, which the handler does not use. */
  datatype Item = Item(
    name: string,
    album: Option<Album>,
    artists: seq<Artist>,
    externalUrls: Option<ExternalUrls>)

  datatype Payload = Payload(currentlyPlayingType: string, isPlaying: bool, item: Option<Item>)

  /** An HTTP answer of the currently-playing endpoint; `data` is None for an empty body. */
  datatype Response = Response(status: int, data: Option<Payload>)

  /** What the currently-playing endpoint does with the request. */
  datatype Upstream = NoAnswer(reason: string) | Answered(response: Response)

  /** What `getNowPlaying` or the payload handling can throw. */
  datatype Fault =
    | AuthFailed(reason: string)
    | TransportFailed(reason: string)
    | ServerError(status: int)
    | MissingField(name: string)

  /** The three environment variables; the empty string stands for unset (both are falsy). */
  datatype Config = Config(clientId: string, clientSecret: string, refreshToken: string)

  predicate Configured(cfg: Config) {
    cfg.clientId != "" && cfg.clientSecret != "" && cfg.refreshToken != ""
  }

  /** Outbound requests, in the order they are issued. */
  datatype Call = TokenRequest(refreshToken: string) | NowPlayingRequest(bearer: string)

  /** The number of refresh-token exchanges among `calls`. */
  function Refreshes(calls: seq<Call>): nat
  {
    if calls == [] then 0
    else (if calls[0].TokenRequest? then 1 else 0) + Refreshes(calls[1..])
  }

  // ---------------------------------------------------------------------
  // Replies of the handler.
  // ---------------------------------------------------------------------

  /**
   * JSON bodies: `Refused` is `{isPlaying:false, error}`, `NotPlaying` is
   * `{isPlaying:false}` with no other field, `Track` is the full record, in
   * which an absent `albumImageUrl` is left out of the JSON.
   */
  datatype Body =
    | Refused(error: string)
    | NotPlaying
    | Track(isPlaying: bool, title: string, album: string, artist: string,
            albumImageUrl: Option<string>, songUrl: string)

  /** Status, body and the value of the Cache-Control header, if the handler set it. */
  datatype Reply = Reply(status: int, body: Body, cacheControl: Option<string>)

  const MethodNotAllowed: string := "Method not allowed"
  const MissingConfiguration: string := "Missing configuration"
  const CacheControl: string := "public, s-maxage=30, stale-while-revalidate=15"
  const ArtistSeparator: string := ", "

  // ---------------------------------------------------------------------
  // Joining artist names.
  // ---------------------------------------------------------------------

  /** `Array.prototype.join`: the parts with `sep` between neighbours. */
  function Join(parts: seq<string>, sep: string): string
  {
    if |parts| == 0 then ""
    else if |parts| == 1 then parts[0]
    else parts[0] + sep + Join(parts[1..], sep)
  }

  /** Joining two non-empty lists is joining each and putting one separator between them. */
  lemma {:induction false} JoinAppend(a: seq<string>, b: seq<string>, sep: string)
    requires |a| > 0 && |b| > 0
    ensures Join(a + b, sep) == Join(a, sep) + sep + Join(b, sep)
  {
    if |a| == 1 {
      assert (a + b)[1..] == b;
    } else {
      assert (a + b)[1..] == a[1..] + b;
      JoinAppend(a[1..], b, sep);
    }
  }

  function SumLengths(parts: seq<string>): nat
  {
    if parts == [] then 0 else |parts[0]| + SumLengths(parts[1..])
  }

  /** A join holds every character of every part plus one separator per gap. */
  lemma {:induction false} JoinLength(parts: seq<string>, sep: string)
    requires |parts| > 0
    ensures |Join(parts, sep)| == SumLengths(parts) + (|parts| - 1) * |sep|
  {
    if |parts| > 1 {
      JoinLength(parts[1..], sep);
    }
  }

  function Names(artists: seq<Artist>): (names: seq<string>)
    ensures |names| == |artists|
    ensures forall i :: 0 <= i < |artists| ==> names[i] == artists[i].name
  {
    seq(|artists|, i requires 0 <= i < |artists| => artists[i].name)
  }

  // ---------------------------------------------------------------------
  // getNowPlaying
  // ---------------------------------------------------------------------

  /** Result of `getNowPlaying`, with the token cache afterwards and the calls made. */
  datatype Fetch = Fetch(result: Result<Response, Fault>, cache: TokenCache.Cache, calls: seq<Call>)

  /**
   * Obtain a token (exchanging `refreshToken` when the cache cannot serve),
   * then GET the currently-playing endpoint with it. A status of 500 or
   * more is rejected by the status filter and thrown; every lower status
   * resolves.
   */
  function GetNowPlaying(refreshToken: string, cache: TokenCache.Cache, now: int,
                         endpoint: TokenCache.Exchange, upstream: Upstream): (f: Fetch)
    ensures f.result.Success? <==>
              TokenCache.Obtains(cache, now, endpoint)
              && upstream.Answered? && upstream.response.status < 500
    ensures f.result.Success? ==> f.result.value == upstream.response
    ensures TokenCache.Obtains(cache, now, endpoint) && upstream.Answered?
              && upstream.response.status >= 500 ==>
              f.result == Failure(ServerError(upstream.response.status))
    ensures !TokenCache.Obtains(cache, now, endpoint) ==>
              f.result == Failure(AuthFailed(endpoint.reason))
              && f.cache == cache && f.calls == [TokenRequest(refreshToken)]
    ensures TokenCache.Obtains(cache, now, endpoint) && upstream.NoAnswer? ==>
              f.result == Failure(TransportFailed(upstream.reason))
    ensures f.calls ==
              (if TokenCache.Reusable(cache, now) then [] else [TokenRequest(refreshToken)])
              + (if TokenCache.Obtains(cache, now, endpoint)
                 then [NowPlayingRequest(if TokenCache.Reusable(cache, now) then cache.token.value
                                         else endpoint.accessToken)]
                 else [])
    ensures TokenRequest(refreshToken) in f.calls <==> !TokenCache.Reusable(cache, now)
    ensures Refreshes(f.calls) == (if TokenCache.Reusable(cache, now) then 0 else 1)
    ensures forall k :: 0 <= k < |f.calls| && f.calls[k].NowPlayingRequest? ==>
              f.cache.token == Some(f.calls[k].bearer)
    ensures f.cache ==
              if !TokenCache.Reusable(cache, now) && endpoint.Granted?
              then TokenCache.Refreshed(now, endpoint.accessToken, endpoint.expiresIn)
              else cache
  {
    var l := TokenCache.GetAccessToken(cache, now, endpoint);
    var exchange := if l.exchanged then [TokenRequest(refreshToken)] else [];
    match l.result
    case Failure(reason) =>
      Fetch(Failure(AuthFailed(reason)), l.cache, exchange)
    case Success(token) =>
      var calls := exchange + [NowPlayingRequest(token)];
      assert Refreshes(calls) == Refreshes(exchange) by {
        assert [NowPlayingRequest(token)][1..] == [];
        RefreshesAppend(exchange, [NowPlayingRequest(token)]);
      }
      match upstream
      case NoAnswer(reason) =>
        Fetch(Failure(TransportFailed(reason)), l.cache, calls)
      case Answered(response) =>
        if response.status < 500 then Fetch(Success(response), l.cache, calls)
        else Fetch(Failure(ServerError(response.status)), l.cache, calls)
  }

  // ---------------------------------------------------------------------
  // Payload normalisation and the handler.
  // ---------------------------------------------------------------------

  /**
   * A resolved response the handler turns into a track: not 204, not above
   * 400, a body whose type is "track", and an item with an album that has
   * an images array, album artists and external URLs.
   */
  predicate ShowsTrack(r: Response) {
    && r.status != 204 && r.status <= 400
    && r.data.Some? && r.data.value.currentlyPlayingType == "track"
    && r.data.value.item.Some?
    && r.data.value.item.value.album.Some?
    && r.data.value.item.value.album.value.images.Some?
    && r.data.value.item.value.album.value.artists.Some?
    && r.data.value.item.value.externalUrls.Some?
  }

  /**
   * A resolved response passes the handler's guards: not 204, not above 400,
   * a body whose type is "track", and an item with an album that has an
   * images array. Only past these guards can reading the payload throw.
   */
  predicate PassesGuards(r: Response) {
    && r.status != 204 && r.status <= 400
    && r.data.Some? && r.data.value.currentlyPlayingType == "track"
    && r.data.value.item.Some?
    && r.data.value.item.value.album.Some?
    && r.data.value.item.value.album.value.images.Some?
  }

  /**
   * The body for a resolved response. Reading the album artists or the
   * external URLs of an item that lacks them throws, as the source does
   * without a guard.
   */
  function Normalise(r: Response): (b: Result<Body, Fault>)
    ensures b.Success? && b.value.Track? <==> ShowsTrack(r)
    ensures b.Success? && !b.value.Track? ==> b.value == NotPlaying
    ensures b.Failure? <==> PassesGuards(r) && !ShowsTrack(r)
    ensures b.Failure? ==> b.error.MissingField?
  {
    if r.status == 204 || r.status > 400 || r.data.None?
       || r.data.value.currentlyPlayingType != "track" then
      Success(NotPlaying)
    else
      var payload := r.data.value;
      if payload.item.None? || payload.item.value.album.None?
         || payload.item.value.album.value.images.None? then
        Success(NotPlaying)
      else
        var item := payload.item.value;
        var album := item.album.value;
        var images := album.images.value;
        var albumImageUrl := if |images| > 0 then Some(images[0].url) else None;
        match album.artists
        case None => Failure(MissingField("artists"))
        case Some(artists) =>
          match item.externalUrls
          case None => Failure(MissingField("external_urls"))
          case Some(urls) =>
            Success(Track(payload.isPlaying, item.name, album.name,
                          Join(Names(artists), ArtistSeparator), albumImageUrl, urls.spotify))
  }

  /** The handler's reply, the token cache afterwards, and the outbound calls made. */
  datatype Handled = Handled(reply: Reply, cache: TokenCache.Cache, calls: seq<Call>)

  /** The request gets past the method check and the configuration check. */
  predicate Proceeds(verb: string, cfg: Config) {
    verb == "GET" && Configured(cfg)
  }

  /**
   * The default export `spotify`: method check, then configuration check,
   * then `getNowPlaying` inside a try block whose catch answers
   * `{isPlaying:false}` with status 200.
   */
  function Spotify(verb: string, cfg: Config, cache: TokenCache.Cache, now: int,
                   endpoint: TokenCache.Exchange, upstream: Upstream): (h: Handled)
    ensures verb != "GET" ==>
              h == Handled(Reply(405, Refused(MethodNotAllowed), None), cache, [])
    ensures verb == "GET" && !Configured(cfg) ==>
              h == Handled(Reply(500, Refused(MissingConfiguration), None), cache, [])
    ensures Proceeds(verb, cfg) ==> h.reply.status == 200 && !h.reply.body.Refused?
    ensures h.reply.cacheControl.Some? <==>
              Proceeds(verb, cfg) && TokenCache.Obtains(cache, now, endpoint)
              && upstream.Answered? && upstream.response.status < 500
    ensures h.reply.cacheControl.Some? ==> h.reply.cacheControl.value == CacheControl
    ensures Proceeds(verb, cfg) ==>
              h.calls ==
                (if TokenCache.Reusable(cache, now) then [] else [TokenRequest(cfg.refreshToken)])
                + (if TokenCache.Obtains(cache, now, endpoint)
                   then [NowPlayingRequest(if TokenCache.Reusable(cache, now) then cache.token.value
                                           else endpoint.accessToken)]
                   else [])
    ensures Refreshes(h.calls) ==
              (if Proceeds(verb, cfg) && !TokenCache.Reusable(cache, now) then 1 else 0)
    ensures h.cache ==
              if Proceeds(verb, cfg) && !TokenCache.Reusable(cache, now) && endpoint.Granted?
              then TokenCache.Refreshed(now, endpoint.accessToken, endpoint.expiresIn)
              else cache
    ensures forall k :: 0 <= k < |h.calls| && h.calls[k].NowPlayingRequest? ==>
              h.cache.token == Some(h.calls[k].bearer)
  {
    if verb != "GET" then
      Handled(Reply(405, Refused(MethodNotAllowed), None), cache, [])
    else if !Configured(cfg) then
      Handled(Reply(500, Refused(MissingConfiguration), None), cache, [])
    else
      var f := GetNowPlaying(cfg.refreshToken, cache, now, endpoint, upstream);
      match f.result
      case Failure(_) =>
        Handled(Reply(200, NotPlaying, None), f.cache, f.calls)
      case Success(response) =>
        var body := match Normalise(response)
                    case Success(b) => b
                    case Failure(_) => NotPlaying;
        Handled(Reply(200, body, Some(CacheControl)), f.cache, f.calls)
  }

  /**
   * The reply carries a track exactly when the request proceeds, a token is
   * obtained, the endpoint answers below 500 and the answer shows a track;
   * the track's fields are then copied from the payload, the artist string
   * from the album's artists.
   */
  lemma TrackShownExactly(verb: string, cfg: Config, cache: TokenCache.Cache, now: int,
                          endpoint: TokenCache.Exchange, upstream: Upstream)
    ensures var h := Spotify(verb, cfg, cache, now, endpoint, upstream);
            h.reply.body.Track? <==>
              Proceeds(verb, cfg) && TokenCache.Obtains(cache, now, endpoint)
              && upstream.Answered? && ShowsTrack(upstream.response)
    ensures var h := Spotify(verb, cfg, cache, now, endpoint, upstream);
            h.reply.body.Track? ==>
              var payload := upstream.response.data.value;
              var item := payload.item.value;
              var album := item.album.value;
              var images := album.images.value;
              && h.reply.body.isPlaying == payload.isPlaying
              && h.reply.body.title == item.name
              && h.reply.body.album == album.name
              && h.reply.body.artist == Join(Names(album.artists.value), ArtistSeparator)
              && (|images| == 0 ==> h.reply.body.albumImageUrl == None)
              && (|images| > 0 ==> h.reply.body.albumImageUrl == Some(images[0].url))
              && h.reply.body.songUrl == item.externalUrls.value.spotify
  {
    if Proceeds(verb, cfg) {
      var f := GetNowPlaying(cfg.refreshToken, cache, now, endpoint, upstream);
      if f.result.Success? {
        assert f.result.value == upstream.response;
        var b := Normalise(upstream.response);
        assert b.Success? && b.value.Track? <==> ShowsTrack(upstream.response);
      }
    }
  }

  /**
   * Every way of getting past the configuration check without a track
   * (a thrown error, status 204 or above 400, no body, a non-track type,
   * a missing item, album, images, artists or URLs) ends in exactly
   * `{isPlaying:false}` with status 200.
   */
  lemma DegradedIsNotPlaying(verb: string, cfg: Config, cache: TokenCache.Cache, now: int,
                             endpoint: TokenCache.Exchange, upstream: Upstream)
    requires Proceeds(verb, cfg)
    requires !TokenCache.Obtains(cache, now, endpoint) || upstream.NoAnswer?
             || !ShowsTrack(upstream.response)
    ensures Spotify(verb, cfg, cache, now, endpoint, upstream).reply.status == 200
    ensures Spotify(verb, cfg, cache, now, endpoint, upstream).reply.body == NotPlaying
  {
    TrackShownExactly(verb, cfg, cache, now, endpoint, upstream);
  }

  /**
   * A 400 answer is not filtered by status: with a track payload the reply
   * is a track, while 401 with the same payload is `{isPlaying:false}`.
   */
  lemma StatusGuardAdmits400(cfg: Config, cache: TokenCache.Cache, now: int,
                             endpoint: TokenCache.Exchange, payload: Payload)
    requires Configured(cfg) && TokenCache.Obtains(cache, now, endpoint)
    requires ShowsTrack(Response(400, Some(payload)))
    ensures Spotify("GET", cfg, cache, now, endpoint, Answered(Response(400, Some(payload)))).reply.body.Track?
    ensures Spotify("GET", cfg, cache, now, endpoint, Answered(Response(401, Some(payload)))).reply.body == NotPlaying
  {
  }

  // ---------------------------------------------------------------------
  // Consecutive requests sharing the process-wide token cache.
  // ---------------------------------------------------------------------

  /** One inbound request together with what the two endpoints answer while it is served. */
  datatype Request = Request(verb: string, now: int, endpoint: TokenCache.Exchange, upstream: Upstream)

  /** The handler applied to one request. */
  function Serve(cfg: Config, cache: TokenCache.Cache, r: Request): Handled
  {
    Spotify(r.verb, cfg, cache, r.now, r.endpoint, r.upstream)
  }

  datatype Served = Served(replies: seq<Reply>, cache: TokenCache.Cache, calls: seq<Call>)

  /** Serve `reqs` one after another, threading the token cache through. */
  function ServeAll(cfg: Config, cache: TokenCache.Cache, reqs: seq<Request>): (s: Served)
    ensures |s.replies| == |reqs|
    decreases |reqs|
  {
    if reqs == [] then Served([], cache, [])
    else
      var h := Serve(cfg, cache, reqs[0]);
      var rest := ServeAll(cfg, h.cache, reqs[1..]);
      Served([h.reply] + rest.replies, rest.cache, h.calls + rest.calls)
  }

  /**
   * Serving `a` and then `b` is serving `a + b`: the second batch starts from
   * the cache the first left behind, and replies and calls are concatenated.
   */
  lemma {:induction false} ServeAllAppend(cfg: Config, cache: TokenCache.Cache, a: seq<Request>, b: seq<Request>)
    ensures var sa := ServeAll(cfg, cache, a);
            var sb := ServeAll(cfg, sa.cache, b);
            ServeAll(cfg, cache, a + b) == Served(sa.replies + sb.replies, sb.cache, sa.calls + sb.calls)
    decreases |a|
  {
    if a == [] {
      assert a + b == b;
    } else {
      var h := Serve(cfg, cache, a[0]);
      ServeAllAppend(cfg, h.cache, a[1..], b);
      ServeAllStep(cfg, cache, a);
      assert (a + b)[1..] == a[1..] + b;
      ServeAllStep(cfg, cache, a + b);
      var rest := ServeAll(cfg, h.cache, a[1..]);
      var sb := ServeAll(cfg, rest.cache, b);
      ConcatAssoc([h.reply], rest.replies, sb.replies);
      ConcatAssoc(h.calls, rest.calls, sb.calls);
    }
  }

  lemma ConcatAssoc<T>(x: seq<T>, y: seq<T>, z: seq<T>)
    ensures x + (y + z) == (x + y) + z
  {
  }

  /** One unfolding of `ServeAll` on a non-empty batch. */
  lemma ServeAllStep(cfg: Config, cache: TokenCache.Cache, reqs: seq<Request>)
    requires reqs != []
    ensures var h := Serve(cfg, cache, reqs[0]);
            var rest := ServeAll(cfg, h.cache, reqs[1..]);
            ServeAll(cfg, cache, reqs) == Served([h.reply] + rest.replies, rest.cache, h.calls + rest.calls)
  {
  }

  lemma {:induction false} RefreshesAppend(a: seq<Call>, b: seq<Call>)
    ensures Refreshes(a + b) == Refreshes(a) + Refreshes(b)
  {
    if a == [] {
      assert a + b == b;
    } else {
      assert (a + b)[1..] == a[1..] + b;
      RefreshesAppend(a[1..], b);
    }
  }

  /** While the cached token stays reusable, no request exchanges and the cache is untouched. */
  lemma {:induction false} NoRefreshWhileReusable(cfg: Config, cache: TokenCache.Cache, reqs: seq<Request>)
    requires forall i :: 0 <= i < |reqs| ==> TokenCache.Reusable(cache, reqs[i].now)
    ensures Refreshes(ServeAll(cfg, cache, reqs).calls) == 0
    ensures ServeAll(cfg, cache, reqs).cache == cache
    decreases |reqs|
  {
    if reqs != [] {
      var h := Spotify(reqs[0].verb, cfg, cache, reqs[0].now, reqs[0].endpoint, reqs[0].upstream);
      assert TokenCache.Reusable(cache, reqs[0].now);
      NoRefreshWhileReusable(cfg, h.cache, reqs[1..]);
      RefreshesAppend(h.calls, ServeAll(cfg, h.cache, reqs[1..]).calls);
    }
  }

  /**
   * A GET that finds the cache unusable and is granted a non-empty token
   * living `expiresIn` seconds is the only exchange among the requests that
   * follow it before that token's safety margin begins.
   */
  lemma OneRefreshPerTokenLifetime(cfg: Config, cache: TokenCache.Cache, reqs: seq<Request>)
    requires Configured(cfg) && |reqs| > 0 && reqs[0].verb == "GET"
    requires !TokenCache.Reusable(cache, reqs[0].now)
    requires reqs[0].endpoint.Granted? && reqs[0].endpoint.accessToken != ""
    requires forall i :: 1 <= i < |reqs| ==>
               reqs[i].now < reqs[0].now + reqs[0].endpoint.expiresIn * 1000 - TokenCache.SafetyMarginMs
    ensures Refreshes(ServeAll(cfg, cache, reqs).calls) == 1
  {
    var h := Spotify(reqs[0].verb, cfg, cache, reqs[0].now, reqs[0].endpoint, reqs[0].upstream);
    var renewed := TokenCache.Refreshed(reqs[0].now, reqs[0].endpoint.accessToken, reqs[0].endpoint.expiresIn);
    assert h.cache == renewed;
    var rest := reqs[1..];
    assert forall i :: 0 <= i < |rest| ==> TokenCache.Reusable(renewed, rest[i].now) by {
      forall i | 0 <= i < |rest|
        ensures TokenCache.Reusable(renewed, rest[i].now)
      {
        assert rest[i] == reqs[i + 1];
      }
    }
    NoRefreshWhileReusable(cfg, renewed, rest);
    RefreshesAppend(h.calls, ServeAll(cfg, renewed, rest).calls);
  }

  /**
   * The end-to-end example: at t=0 the token endpoint grants "T1" for 3600 s
   * and the track "Song" by "Art" on "Album" is playing; a second request at
   * t=1000 gets the same track without a second exchange.
   */
  lemma ScenarioTrackAfterRefresh(cfg: Config, later: TokenCache.Exchange)
    requires Configured(cfg)
    ensures var album := Album("Album", Some([Image("u")]), Some([Artist("Art")]));
            var item := Item("Song", Some(album), [Artist("Art")], Some(ExternalUrls("s")));
            var upstream := Answered(Response(200, Some(Payload("track", true, Some(item)))));
            var s := ServeAll(cfg, TokenCache.Initial,
                              [Request("GET", 0, TokenCache.Granted("T1", 3600), upstream),
                               Request("GET", 1000, later, upstream)]);
            && s.replies[0].body == Track(true, "Song", "Album", "Art", Some("u"), "s")
            && s.replies[1] == s.replies[0]
            && s.calls == [TokenRequest(cfg.refreshToken), NowPlayingRequest("T1"), NowPlayingRequest("T1")]
  {
    var album := Album("Album", Some([Image("u")]), Some([Artist("Art")]));
    var item := Item("Song", Some(album), [Artist("Art")], Some(ExternalUrls("s")));
    var upstream := Answered(Response(200, Some(Payload("track", true, Some(item)))));
    var reqs := [Request("GET", 0, TokenCache.Granted("T1", 3600), upstream),
                 Request("GET", 1000, later, upstream)];
    var h0 := Spotify("GET", cfg, TokenCache.Initial, 0, TokenCache.Granted("T1", 3600), upstream);
    assert h0.calls == [TokenRequest(cfg.refreshToken), NowPlayingRequest("T1")];
    var h1 := Spotify("GET", cfg, h0.cache, 1000, later, upstream);
    assert h1.calls == [NowPlayingRequest("T1")];
    assert reqs[1..][1..] == [];
    assert ServeAll(cfg, h0.cache, reqs[1..]).calls == h1.calls + [];
  }
}

=== FILE: token_cache.dfy ===
/**
 * The server-side access-token cache of the now-playing proxy.
 *
 * The source keeps two module-level variables, `cachedToken` and
 * `cachedTokenExpiresAt`; here they are one immutable record that every
 * lookup takes and returns. The clock reading and the answer the token
 * endpoint would give are parameters.
 */
module TokenCache {
  import opened Wrappers

  /** A cached token is no longer reused within this many milliseconds of its expiry. */
  const SafetyMarginMs: int := 60000

  /** `token` is `cachedToken` (None for `null`); `expiresAt` is `cachedTokenExpiresAt` in ms. */
  datatype Cache = Cache(token: Option<string>, expiresAt: int)

  /** The cache as the process starts: no token, expiry instant 0. */
  const Initial: Cache := Cache(None, 0)

  /**
   * What the token endpoint does with a refresh-token exchange: it grants a
   * token valid for `expiresIn` seconds, or the request is rejected (a
   * transport failure or a non-2xx status) with some error.
   */
  datatype Exchange = Granted(accessToken: string, expiresIn: int) | Rejected(reason: string)

  /** JavaScript truthiness of `cachedToken`: neither `null` nor the empty string. */
  predicate Truthy(token: Option<string>) {
    token.Some? && token.value != ""
  }

  /** The cached token may be handed out at `now` without contacting the endpoint. */
  predicate Reusable(c: Cache, now: int) {
    Truthy(c.token) && now < c.expiresAt - SafetyMarginMs
  }

  /** A lookup at `now` against `endpoint` ends with a token rather than an error. */
  predicate Obtains(c: Cache, now: int, endpoint: Exchange) {
    Reusable(c, now) || endpoint.Granted?
  }

  /** The cache a successful exchange started at `now` leaves behind. */
  function Refreshed(now: int, accessToken: string, expiresIn: int): (c: Cache)
    ensures c.token == Some(accessToken)
    ensures c.expiresAt - now == expiresIn * 1000
  {
    Cache(Some(accessToken), now + expiresIn * 1000)
  }

  /** One lookup: the token or the error, the cache afterwards, and whether the endpoint was asked. */
  datatype Lookup = Lookup(result: Result<string, string>, cache: Cache, exchanged: bool)

  /**
   * `getAccessToken`: reuse a valid cached token, otherwise exchange the
   * refresh token; the cache changes only when the exchange succeeds, and
   * the expiry is computed from the clock read before the request.
   */
  function GetAccessToken(c: Cache, now: int, endpoint: Exchange): (l: Lookup)
    ensures l.exchanged <==> !Reusable(c, now)
    ensures !l.exchanged ==> l.cache == c && l.result == Success(c.token.value)
    ensures l.result.Success? <==> Obtains(c, now, endpoint)
    ensures l.result.Success? ==> l.cache.token == Some(l.result.value)
    ensures l.exchanged && endpoint.Granted? ==>
              l.result == Success(endpoint.accessToken)
              && l.cache == Refreshed(now, endpoint.accessToken, endpoint.expiresIn)
    ensures l.result.Failure? ==>
              l.cache == c && endpoint.Rejected? && l.result.error == endpoint.reason
  {
    if Reusable(c, now) then
      Lookup(Success(c.token.value), c, false)
    else
      match endpoint
      case Granted(accessToken, expiresIn) =>
        Lookup(Success(accessToken), Refreshed(now, accessToken, expiresIn), true)
      case Rejected(reason) =>
        Lookup(Failure(reason), c, true)
  }

  /**
   * After a successful exchange at `now`, every later lookup before
   * `now + expiresIn*1000 - 60000` reuses the new token without asking the
   * endpoint, provided the granted token is non-empty. With `later == now` this
   * is the immediate second call, which needs `expiresIn*1000 > 60000`.
   */
  lemma ReusedUntilMargin(c: Cache, now: int, first: Exchange, later: int, second: Exchange)
    requires !Reusable(c, now) && first.Granted? && first.accessToken != ""
    requires later < now + first.expiresIn * 1000 - SafetyMarginMs
    ensures var l1 := GetAccessToken(c, now, first);
            var l2 := GetAccessToken(l1.cache, later, second);
            l1.exchanged && !l2.exchanged
            && l2.result == Success(first.accessToken) && l2.cache == l1.cache
  {
  }

  /**
   * A granted empty token is stored but is falsy, so the very next lookup
   * exchanges again however long the token would have lived.
   */
  lemma EmptyTokenNeverReused(c: Cache, now: int, first: Exchange, later: int, second: Exchange)
    requires !Reusable(c, now) && first.Granted? && first.accessToken == ""
    ensures var l1 := GetAccessToken(c, now, first);
            GetAccessToken(l1.cache, later, second).exchanged
  {
  }

  /** A rejected exchange is a no-op on the cache, so a retry sees the same state and asks again. */
  lemma RejectionLeavesCache(c: Cache, now: int, reason: string, later: int, second: Exchange)
    requires !Reusable(c, now) && later >= now
    ensures var l1 := GetAccessToken(c, now, Rejected(reason));
            l1.cache == c && l1.result == Failure(reason)
            && GetAccessToken(l1.cache, later, second).exchanged
  {
  }
}

=== FILE: wrappers.dfy ===
/** Failure-carrying value types shared by the now-playing model. */
module Wrappers {

  /** An optional value: `None` plays the part of JavaScript's `null`/`undefined`. */
  datatype Option<+T> = None | Some(value: T) {

    /** The carried value, or `default` when there is none (a JavaScript default argument). */
    function GetOr(default: T): (r: T)
      ensures Some? ==> r == value
      ensures None? ==> r == default
    {
      match this
      case Some(v) => v
      case None => default
    }
  }

  /** The outcome of an operation that may throw: `Failure` carries what was thrown. */
  datatype Result<+T, +E> = Success(value: T) | Failure(error: E)
}
